=== FILE: README.md ===
# SDISC in Dafny

A model of `SDISC.hpp`, the header that defines the LISC-16 instruction
word (`lisc::Instruction`), its opcode enumeration (`lisc::opcodes`) and one
step of the processor (`lisc::CPU::runInstruction` and its per-opcode
handlers).

Modules, one per file:

- `Bits` (`bits.dfy`): the C operators `&`, `|`, `^`, `<<` and `>>` on
  naturals. It also gives a bit-by-bit reading `Bit(x, k)` and an
  extensionality lemma, so each operator can be specified bit by bit.
- `Words` (`words.dfy`): `uint16_t` values. Each arithmetic function first
  promotes its operands to `int`, then converts the result back to 16 bits
  on assignment.
- `Opcodes` (`opcodes.dfy`): the fourteen enumerators and their values.
  `Lookup` maps a 4-bit code back to its enumerator. Codes 0x2 and 0x3 have
  none.
- `Instructions` (`instruction.dfy`): the instruction word and its three
  constructors. `Encode` and `Decode` convert between an instruction and a
  16-bit word. The layout is opcode in bits 15-12, `rega` in 11-8, `regb`
  in 7-4 and `regc` in 3-0. The immediate `byte` is bits 7-0, the same
  storage as `regb`/`regc`.
- `Cpu` (`cpu.dfy`): the processor state. It holds a PC, sixteen registers
  and 0x100000 memory words, all 16-bit. Each handler is a pure function
  from the state before to the state after. `Run` is `runInstruction`.
- `CpuProperties` (`properties.dfy`): lemmas that relate handlers to each
  other and to the dispatcher.

The model follows the header as written, including its surprises:

- `runInstruction` sends `ADD` and `SUB` to `LOD`. The `ADD` and `SUB`
  member functions exist but are reachable only by calling them directly.
- `JIE` and `JAL` jump to the value of the `regc` / `regb` field itself,
  not to a register's contents.
- `STR` and `LOD` address memory with `(regb << 16) | reg[regc]`. So the
  `regb` field selects one of sixteen 64K-word pages of a 0x100000-word
  memory.
- `SHB` keeps the high byte and ors the immediate into it. `SLB` keeps the
  low byte and ors the immediate into it. Each clears the byte that its
  name suggests it preserves.
- Codes 0x2 and 0x3 reach `NO_OPCODE` and change nothing.
- There is no `STP` instruction, no clock, no fetch loop and no reset. The
  opcode values are those of the enumeration (`JIE` = 0, `JAL` = 1). The
  memory size is the array's 0x100000 words.
- Division by zero is not a defined failure. The header divides natively,
  so `DivOp` and `Run` require a non-zero divisor.

## Model

| member | source | states |
|---|---|---|
| Opcodes.Lookup | SDISC.hpp:8-31 | exactly the codes 0x2 and 0x3 have no enumerator; any other code maps to the enumerator whose value it is |
| Opcodes.Code | SDISC.hpp:11-30 | every enumerator's value: never 0x2 or 0x3; the jumps below 0x2, load/store/set in 0x4-0x7, the bitwise operators in 0x8-0xB, arithmetic in 0xC-0xF; `LookupCode` adds that the values are distinct |
| Opcodes.LookupCode | SDISC.hpp:8-31 | every enumerator is found again from its value, so the fourteen values are distinct |
| Instructions.Default | SDISC.hpp:35-36 | the default instruction has opcode `JIE`, `rega` 0 and `byte` 0, so `regb` and `regc` are 0 as well |
| Instructions.MakeRegs | SDISC.hpp:38-41 | the four-argument constructor keeps each register argument modulo 16, and the opcode is the enumerator's value |
| Instructions.MakeImm | SDISC.hpp:43-46 | the immediate constructor stores the byte unchanged; read through the other view of the union, it gives `regb` = byte / 16 and `regc` = byte % 16 |
| Instructions.LowByteIsMod | SDISC.hpp:131 | `x & 0xff` is `x % 0x100` |
| Instructions.Instruction.RegB | SDISC.hpp:52 | the `regb` view of the union: bit `k` is bit `k + 4` of the shared byte for `k` below 4, and no higher bit is set |
| Instructions.Instruction.RegC | SDISC.hpp:52 | the `regc` view of the union: bit `k` is bit `k` of the shared byte for `k` below 4, and no higher bit is set |
| Instructions.ByteIsRegs | SDISC.hpp:50-54 | the two views of the union share storage: `byte == regb * 16 + regc` |
| Instructions.Encode | SDISC.hpp:48-54 | the 16-bit word is `opcode * 0x1000 + rega * 0x100 + byte` |
| Instructions.Decode | SDISC.hpp:48-54 | splitting any 16-bit word into fields and re-encoding them gives the same word back |
| Instructions.EncodeInjective | SDISC.hpp:48-54 | distinct instructions have distinct words |
| Instructions.DecodeEncode | SDISC.hpp:48-54 | decoding an encoded instruction gives back every field |
| Instructions.DecodeFields | SDISC.hpp:48-54 | the decoded fields of a word, read arithmetically: `w / 0x1000`, `(w / 0x100) % 16`, `(w / 16) % 16`, `w % 16`, `w % 0x100` |
| Words.ToWord | SDISC.hpp:182-183 | storing an `int` into a `uint16_t` keeps the word congruent to it modulo 2^16, and leaves values already in range unchanged |
| Words.Add | SDISC.hpp:159 | the sum loses its carry out of bit 15 |
| Words.Sub | SDISC.hpp:164 | a difference below zero wraps up by 2^16 |
| Words.Mul | SDISC.hpp:169 | the product is congruent to the stored word modulo 2^16, and equal to it when below 2^16 |
| Words.Div | SDISC.hpp:174 | the quotient `q` is truncated: `q * c <= b < q * c + c` |
| Words.And | SDISC.hpp:138 | each bit is set exactly when both operands have it set |
| Words.Ior | SDISC.hpp:148 | each bit is set exactly when either operand has it set |
| Words.Xor | SDISC.hpp:153 | each bit is set exactly when the operands differ there |
| Words.Nnd | SDISC.hpp:143 | each of bits 0-15 is set exactly when the operands are not both set there, and no bit above 15 is set |
| Words.AddSubInverse | SDISC.hpp:157-165 | wrapped subtraction undoes wrapped addition and the other way round |
| Words.MulStep | SDISC.hpp:167-170 | wrapped multiplication by `c + 1` is wrapped multiplication by `c` plus one more wrapped addition |
| Words.NndOfOnes | SDISC.hpp:143 | NND of two all-ones words is 0 |
| Words.NndNndIsAnd | SDISC.hpp:143 | NND of an NND with itself is AND |
| Words.WrapExamples | SDISC.hpp:157-175 | 0xFFFF + 1 = 0, 0 - 1 = 0xFFFF, 0x8000 * 2 = 0, 7 / 2 = 3 |
| Cpu.Initial | SDISC.hpp:179-183 | the initial state has PC 0, every register 0 and every memory word 0 |
| Cpu.Jie | SDISC.hpp:100-104 | with `reg[rega] == reg[regb]` the PC becomes the `regc` field; otherwise nothing changes; registers and memory are never written |
| Cpu.Jal | SDISC.hpp:106-110 | `reg[rega]` becomes the old PC + 1 (0 when the PC was 0xFFFF), the PC becomes the `regb` field, and no other register and no memory changes |
| Cpu.Address | SDISC.hpp:113-121 | the address formed by STR and LOD is `regb * 0x10000 + reg[regc]` |
| Cpu.Write | SDISC.hpp:115 | writing `v` at `a` makes `a` read `v` and every other address read as before |
| Cpu.MemoryExtensionality | SDISC.hpp:183 | two memories that read the same at every address are equal, so the map representation is canonical |
| Cpu.Str | SDISC.hpp:113-116 | the addressed word becomes `reg[rega]`; every other word, the registers and the PC are unchanged |
| Cpu.Lod | SDISC.hpp:118-121 | `reg[rega]` becomes the addressed word; nothing else changes |
| Cpu.ShbValue | SDISC.hpp:125-126 | after SHB, bits 0-7 are clear and each of bits 8-15 is the prior bit or-ed with the matching immediate bit |
| Cpu.Shb | SDISC.hpp:123-127 | only `reg[rega]` changes, to the SHB value of its prior contents |
| Cpu.SlbValue | SDISC.hpp:131-132 | after SLB, bits 8-15 are clear and each of bits 0-7 is the prior bit or-ed with the matching immediate bit |
| Cpu.Slb | SDISC.hpp:129-133 | only `reg[rega]` changes, to the SLB value of its prior contents |
| Cpu.AndOp | SDISC.hpp:136-139 | only `reg[rega]` changes; each of its bits is the AND of the matching bits of `reg[regb]` and `reg[regc]` |
| Cpu.NndOp | SDISC.hpp:141-144 | only `reg[rega]` changes; each of its bits 0-15 is the NAND of the operand bits |
| Cpu.IorOp | SDISC.hpp:146-149 | only `reg[rega]` changes; each of its bits is the OR of the operand bits |
| Cpu.XorOp | SDISC.hpp:151-154 | only `reg[rega]` changes; each of its bits is the XOR of the operand bits |
| Cpu.AddOp | SDISC.hpp:157-160 | only `reg[rega]` changes, to `reg[regb] + reg[regc]` less 2^16 on a carry |
| Cpu.SubOp | SDISC.hpp:162-165 | only `reg[rega]` changes, to `reg[regb] - reg[regc]` plus 2^16 on a borrow |
| Cpu.MulOp | SDISC.hpp:167-170 | only `reg[rega]` changes, to a word congruent to the product modulo 2^16 |
| Cpu.DivOp | SDISC.hpp:172-175 | with a non-zero divisor, only `reg[rega]` changes, to the truncated quotient |
| Cpu.NoOpcode | SDISC.hpp:177 | PC, registers and memory are unchanged |
| Cpu.Run | SDISC.hpp:62-97 | any opcode: only STR changes memory; only JIE and JAL move the PC, and only to 0-15; no register but `rega` changes; JIE, STR and the two unnamed codes change no register |
| CpuProperties.RunDispatch | SDISC.hpp:62-97 | the unnamed codes leave the state as it was; ADD and SUB behave exactly as LOD; every other code runs the handler of its own name |
| CpuProperties.AddSubLoad | SDISC.hpp:87-90 | opcodes 0xC and 0xD make exactly LOD's state change, whatever the registers and memory hold |
| CpuProperties.JumpTargetsAreFields | SDISC.hpp:100-110 | a taken JIE lands on bits 3-0 of the instruction word, and JAL lands on bits 7-4 |
| CpuProperties.DefaultJumpsToZero | SDISC.hpp:100-104 | running the default instruction only sets the PC to 0 |
| CpuProperties.JalExample | SDISC.hpp:106-110 | JAL r1, 2 at PC 10 links 11 into r1 and continues at 2, whatever r2 holds |
| CpuProperties.JalLinkWraps | SDISC.hpp:108 | JAL at PC 0xFFFF links 0 |
| CpuProperties.StoreThenLoad | SDISC.hpp:113-121 | a load through the same `regb` field and `regc` register reads back what a store wrote |
| CpuProperties.LoadThenStore | SDISC.hpp:113-121 | storing what was just loaded gives exactly the state after the load, provided `rega` is not the `regc` register |
| CpuProperties.StoreSameValue | SDISC.hpp:113-116 | storing the value a word already holds leaves the whole state unchanged |
| CpuProperties.StoreIdempotent | SDISC.hpp:113-116 | a second identical store changes nothing more |
| CpuProperties.LoadThenStoreAliased | SDISC.hpp:113-121 | when `rega` is the `regc` register, the store after a load goes to the address formed from the loaded value |
| CpuProperties.AddressInRange | SDISC.hpp:115 | every address is below 0x100000; its page is the `regb` field and its offset is `reg[regc]` |
| CpuProperties.ShbClearsLowByte | SDISC.hpp:123-127 | the SHB value is a multiple of 0x100 |
| CpuProperties.SlbClearsHighByte | SDISC.hpp:129-133 | the SLB value is below 0x100 |
| CpuProperties.ShbHighByte | SDISC.hpp:123-127 | the SHB value is `prior >> 8` or-ed with the immediate, shifted left by 8 |
| CpuProperties.SlbLowByte | SDISC.hpp:129-133 | the SLB value is `prior & 0xff` or-ed with the immediate |
| CpuProperties.ShbDiscardsLowByte | SDISC.hpp:123-127 | on a register whose high byte is zero, SHB gives `byte << 8` and the prior low byte is lost |
| CpuProperties.SlbDiscardsHighByte | SDISC.hpp:129-133 | on a register whose low byte is zero, SLB gives `byte` and the prior high byte is lost |
| CpuProperties.ShbIdempotent | SDISC.hpp:123-127 | a second SHB with the same instruction changes nothing more |
| CpuProperties.SlbIdempotent | SDISC.hpp:129-133 | a second SLB with the same instruction changes nothing more |
| CpuProperties.AddThenSub | SDISC.hpp:157-165 | the SUB member function undoes the ADD member function on the same `regc` operand |

## Left out

- `program[]` (SDISC.hpp:180) is declared but never read, so the model has no program store.
- The header has no fetch loop, clock, tick costs, run state, `STP` or reset, so none are modelled.
- Words.Mul: two `uint16_t` operands are promoted to `int`, and a product above `INT_MAX` is undefined behaviour in C++. The model gives the low 16 bits of the true product in every case.
- Cpu.MulOp: the same abstraction of signed overflow as `Words.Mul`.
- Cpu.DivOp: division by a zero register is undefined behaviour in the header, so it is a precondition. `Run` requires the same through `Defined`.
- Instructions.MakeRegs: the opcode argument is the enumeration itself, so storing it into the 4-bit field needs no truncation. Every enumerator value fits in four bits.
- The placement of bit-fields and of the anonymous union is left to the compiler. The model fixes the explicit layout described above and uses it for `Encode`, `Decode`, `RegB` and `RegC`.
- Memory is a sparse map in which an absent address reads as 0 and a zero word is never stored. Each array content therefore has exactly one map (`Cpu.MemoryExtensionality`), so `==` on states agrees with the zero-initialised array of 0x100000 words.

=== FILE: bits.dfy ===
/**
  Bit-level view of non-negative integers.

  The machine stores every value in an unsigned C integer and combines values
  with `&`, `|`, `^`, `<<` and `>>`.  This module defines those operators on
  mathematical naturals, together with a bit-by-bit reading of a natural
  (`Bit`), so that the rest of the model can state what an operator does to
  each bit and then conclude equalities by extensionality.
 */
module Bits {

  function Pow2(n: nat): (p: nat)
    ensures p > 0
  {
    if n == 0 then 1 else 2 * Pow2(n - 1)
  }

  /** Bit `k` of `x`, counted from the least significant bit. */
  predicate Bit(x: nat, k: nat)
  {
    if k == 0 then x % 2 == 1 else Bit(x / 2, k - 1)
  }

  lemma {:induction false} ZeroHasNoBits(k: nat)
    ensures !Bit(0, k)
  {
    if k > 0 {
      ZeroHasNoBits(k - 1);
    }
  }

  /** A number below `2^n` has no bit set at position `n` or above. */
  lemma {:induction false} BitBeyondWidth(x: nat, n: nat, k: nat)
    requires x < Pow2(n)
    requires n <= k
    ensures !Bit(x, k)
  {
    if n == 0 {
      ZeroHasNoBits(k);
    } else {
      BitBeyondWidth(x / 2, n - 1, k - 1);
    }
  }

  /** Conversely, a number with no bit set at position `n` or above is below `2^n`. */
  lemma {:induction false} HighBitsClear(x: nat, n: nat)
    requires forall k: nat :: n <= k ==> !Bit(x, k)
    ensures x < Pow2(n)
  {
    if n == 0 {
      forall k: nat ensures Bit(x, k) == Bit(0, k) {
        ZeroHasNoBits(k);
      }
      Extensionality(x, 0);
    } else {
      forall k: nat | n - 1 <= k ensures !Bit(x / 2, k) {
        assert !Bit(x, k + 1);
      }
      HighBitsClear(x / 2, n - 1);
    }
  }

  /** Two naturals with the same bits are equal. */
  lemma {:induction false} Extensionality(x: nat, y: nat)
    requires forall k: nat :: Bit(x, k) == Bit(y, k)
    ensures x == y
    decreases x + y
  {
    if x != y {
      assert Bit(x, 0) == Bit(y, 0);
      forall k: nat ensures Bit(x / 2, k) == Bit(y / 2, k) {
        assert Bit(x, k + 1) == Bit(y, k + 1);
      }
      Extensionality(x / 2, y / 2);
    }
  }

  /** `2^n - 1` has exactly the bits `0 .. n-1` set. */
  lemma {:induction false} LowOnes(n: nat, k: nat)
    ensures Bit(Pow2(n) - 1, k) <==> k < n
  {
    if n == 0 {
      ZeroHasNoBits(k);
    } else if k > 0 {
      assert (Pow2(n) - 1) / 2 == Pow2(n - 1) - 1;
      LowOnes(n - 1, k - 1);
    }
  }

  /** The binary connectives the C operators `&`, `|` and `^` apply bit by bit. */
  datatype BoolOp = Conj | Disj | Differ

  function Apply(op: BoolOp, a: bool, b: bool): bool
  {
    match op
    case Conj => a && b
    case Disj => a || b
    case Differ => a != b
  }

  /** Applies `op` to every pair of corresponding bits of `x` and `y`. */
  function Bitwise(op: BoolOp, x: nat, y: nat): nat
    decreases x + y
  {
    if x == 0 && y == 0 then 0
    else (if Apply(op, x % 2 == 1, y % 2 == 1) then 1 else 0) + 2 * Bitwise(op, x / 2, y / 2)
  }

  lemma {:induction false} BitwiseBit(op: BoolOp, x: nat, y: nat, k: nat)
    ensures Bit(Bitwise(op, x, y), k) == Apply(op, Bit(x, k), Bit(y, k))
    decreases k
  {
    if x == 0 && y == 0 {
      ZeroHasNoBits(k);
    } else if k > 0 {
      assert Bitwise(op, x, y) / 2 == Bitwise(op, x / 2, y / 2);
      BitwiseBit(op, x / 2, y / 2, k - 1);
    }
  }

  /** Bitwise operators never widen their operands. */
  lemma {:induction false} BitwiseBound(op: BoolOp, x: nat, y: nat, n: nat)
    requires x < Pow2(n)
    requires y < Pow2(n)
    ensures Bitwise(op, x, y) < Pow2(n)
  {
    forall k: nat | n <= k ensures !Bit(Bitwise(op, x, y), k) {
      BitwiseBit(op, x, y, k);
      BitBeyondWidth(x, n, k);
      BitBeyondWidth(y, n, k);
    }
    HighBitsClear(Bitwise(op, x, y), n);
  }

  /** C `x & y`. */
  function And(x: nat, y: nat): (r: nat)
    ensures forall k: nat :: Bit(r, k) <==> Bit(x, k) && Bit(y, k)
  {
    var r := Bitwise(Conj, x, y);
    forall k: nat ensures Bit(r, k) <==> Bit(x, k) && Bit(y, k) {
      BitwiseBit(Conj, x, y, k);
    }
    r
  }

  /** C `x | y`. */
  function Or(x: nat, y: nat): (r: nat)
    ensures forall k: nat :: Bit(r, k) <==> Bit(x, k) || Bit(y, k)
  {
    var r := Bitwise(Disj, x, y);
    forall k: nat ensures Bit(r, k) <==> Bit(x, k) || Bit(y, k) {
      BitwiseBit(Disj, x, y, k);
    }
    r
  }

  /** C `x ^ y`. */
  function Xor(x: nat, y: nat): (r: nat)
    ensures forall k: nat :: Bit(r, k) <==> Bit(x, k) != Bit(y, k)
  {
    var r := Bitwise(Differ, x, y);
    forall k: nat ensures Bit(r, k) <==> Bit(x, k) != Bit(y, k) {
      BitwiseBit(Differ, x, y, k);
    }
    r
  }

  /** A mask never lets through more than itself. */
  lemma {:induction false} AndBelowMask(x: nat, y: nat)
    ensures And(x, y) <= y
    decreases x + y
  {
    if !(x == 0 && y == 0) {
      AndBelowMask(x / 2, y / 2);
      assert And(x, y) == (if x % 2 == 1 && y % 2 == 1 then 1 else 0) + 2 * And(x / 2, y / 2);
    }
  }

  /** `|` and `&` together account for every set bit once: `(x | y) + (x & y) == x + y`. */
  lemma {:induction false} OrPlusAnd(x: nat, y: nat)
    ensures Or(x, y) + And(x, y) == x + y
    decreases x + y
  {
    if !(x == 0 && y == 0) {
      OrPlusAnd(x / 2, y / 2);
      assert Or(x, y) == (if x % 2 == 1 || y % 2 == 1 then 1 else 0) + 2 * Or(x / 2, y / 2);
      assert And(x, y) == (if x % 2 == 1 && y % 2 == 1 then 1 else 0) + 2 * And(x / 2, y / 2);
    }
  }

  /** On operands without a common bit, `|` is addition. */
  lemma OrDisjointIsSum(x: nat, y: nat)
    requires forall k: nat :: !(Bit(x, k) && Bit(y, k))
    ensures Or(x, y) == x + y
  {
    forall k: nat ensures Bit(And(x, y), k) == Bit(0, k) {
      ZeroHasNoBits(k);
    }
    Extensionality(And(x, y), 0);
    OrPlusAnd(x, y);
  }

  /** `0 | x == x`. */
  lemma OrZero(x: nat)
    ensures Or(0, x) == x
  {
    forall k: nat ensures Bit(Or(0, x), k) == Bit(x, k) {
      ZeroHasNoBits(k);
    }
    Extensionality(Or(0, x), x);
  }

  /** C `x << n`, on unbounded naturals. */
  function Shl(x: nat, n: nat): nat
  {
    x * Pow2(n)
  }

  lemma {:induction false} ShlBit(x: nat, n: nat, k: nat)
    ensures Bit(Shl(x, n), k) <==> n <= k && Bit(x, k - n)
  {
    if n > 0 {
      assert Shl(x, n) == 2 * Shl(x, n - 1);
      if k > 0 {
        assert Shl(x, n) / 2 == Shl(x, n - 1);
        ShlBit(x, n - 1, k - 1);
      }
    }
  }

  /** C `x >> n`. */
  function Shr(x: nat, n: nat): nat
  {
    if n == 0 then x else Shr(x / 2, n - 1)
  }

  lemma {:induction false} ShrBit(x: nat, n: nat, k: nat)
    ensures Bit(Shr(x, n), k) == Bit(x, k + n)
  {
    if n > 0 {
      ShrBit(x / 2, n - 1, k);
    }
  }

  /** Quotient and remainder are determined by any decomposition `w == q * d + r` with `0 <= r < d`. */
  lemma DivModUnique(w: int, d: int, q: int, r: int)
    requires 0 < d && 0 <= r < d
    requires w == q * d + r
    ensures w / d == q && w % d == r
  {
    var q', r' := w / d, w % d;
    assert w == q' * d + r';
    assert (q - q') * d == r' - r;
    MulMagnitude(q - q', d);
  }

  /** A non-zero multiple of `d` is at least `d` away from zero. */
  lemma {:induction false} MulMagnitude(t: int, d: int)
    requires 0 < d
    ensures 1 <= t ==> t * d >= d
    ensures t <= -1 ==> t * d <= -d
    decreases if t < 0 then -t else t
  {
    if t > 1 {
      MulMagnitude(t - 1, d);
      assert t * d == (t - 1) * d + d;
    } else if t < -1 {
      MulMagnitude(t + 1, d);
      assert t * d == (t + 1) * d - d;
    }
  }

  /** `x >> n == x / 2^n`. */
  lemma {:induction false} ShrIsDiv(x: nat, n: nat)
    ensures Shr(x, n) == x / Pow2(n)
  {
    if n > 0 {
      ShrIsDiv(x / 2, n - 1);
      HalveThenDivide(x, Pow2(n - 1));
    }
  }

  /** Halving and then dividing by `p` is dividing by `2 * p`. */
  lemma HalveThenDivide(x: nat, p: nat)
    requires 0 < p
    ensures (x / 2) / p == x / (2 * p)
  {
    var q, r := (x / 2) / p, (x / 2) % p;
    assert x / 2 == q * p + r;
    assert x == q * (2 * p) + (2 * r + x % 2) by {
      assert x == 2 * (x / 2) + x % 2;
      assert 2 * (q * p) == q * (2 * p);
    }
    DivModUnique(x, 2 * p, q, 2 * r + x % 2);
  }
}

=== FILE: cpu.dfy ===
/**
  `lisc::CPU`: a program counter, sixteen registers and 0x100000 words of
  memory, all `uint16_t`, and one handler per opcode.

  Each handler mutates the CPU in the source; here it is a function from the
  state before to the state after.  `Run` is `runInstruction`, the chain of
  comparisons that picks a handler for an instruction's opcode.
 */
module Cpu {
  import Bits
  import opened Words
  import opened Opcodes
  import opened Instructions

  const MemorySize: nat := 0x10_0000

  type Addr = a: int | 0 <= a < MemorySize

  type Registers = r: seq<Word> | |r| == 0x10 witness seq(0x10, _ => 0)

  /**
    The memory array, stored sparsely: an address absent from the map holds
    zero, and a zero word is never stored explicitly.  Each array content
    thus has exactly one representation (`MemoryExtensionality`), so `==` on
    memories and on states means the same as on the array.
   */
  type Memory = m: map<Addr, Word> | forall a :: a in m ==> m[a] != 0
    witness map[]

  /** `mem[a]`. */
  function Read(m: Memory, a: Addr): Word
  {
    if a in m then m[a] else 0
  }

  /** `mem[a] = v`. */
  function Write(m: Memory, a: Addr, v: Word): (r: Memory)
    ensures Read(r, a) == v
    ensures forall b: Addr :: b != a ==> Read(r, b) == Read(m, b)
  {
    if v == 0 then m - {a} else m[a := v]
  }

  /** Two memories that read the same at every address are the same memory. */
  lemma MemoryExtensionality(m: Memory, n: Memory)
    requires forall a: Addr :: Read(m, a) == Read(n, a)
    ensures m == n
  {
    forall a: Addr | a in m ensures a in n && n[a] == m[a] {
      assert Read(m, a) == Read(n, a);
    }
    forall a: Addr | a in n ensures a in m {
      assert Read(m, a) == Read(n, a);
    }
    assert m.Keys == n.Keys;
  }

  datatype State = State(pc: Word, reg: Registers, mem: Memory)

  /** The member initialisers: `PC = 0`, `reg[0x10] = { }`, `mem[0x100000] = { }`. */
  function Initial(): (s: State)
    ensures s.pc == 0
    ensures forall k :: 0 <= k < 0x10 ==> s.reg[k] == 0
    ensures forall a: Addr :: Read(s.mem, a) == 0
  {
    State(0, seq(0x10, _ => 0), map[])
  }

  /** `t` differs from `s` at most in register `a`. */
  ghost predicate OnlyRegister(s: State, t: State, a: Nibble)
  {
    && t.pc == s.pc
    && t.mem == s.mem
    && forall k :: 0 <= k < 0x10 && k != a ==> t.reg[k] == s.reg[k]
  }

  /** `reg[a] = v`. */
  function SetReg(s: State, a: Nibble, v: Word): (t: State)
    ensures OnlyRegister(s, t, a)
    ensures t.reg[a] == v
  {
    s.(reg := s.reg[a := v])
  }

  /* Jumps and conditions */

  /** JIE: if `reg[rega] == reg[regb]`, the PC becomes the regc field itself. */
  function Jie(s: State, i: Instruction): (t: State)
    ensures t.reg == s.reg && t.mem == s.mem
    ensures s.reg[i.rega] == s.reg[i.RegB()] ==> t.pc == i.RegC()
    ensures s.reg[i.rega] != s.reg[i.RegB()] ==> t == s
  {
    if s.reg[i.rega] == s.reg[i.RegB()] then s.(pc := i.RegC()) else s
  }

  /**
    JAL: `reg[rega] = PC + 1` is evaluated in `int` and stored into a
    `uint16_t`, and only then does the PC become the regb field itself.
   */
  function Jal(s: State, i: Instruction): (t: State)
    ensures t.mem == s.mem
    ensures t.pc == i.RegB()
    ensures t.reg[i.rega] == if s.pc == 0xFFFF then 0 else s.pc + 1
    ensures forall k :: 0 <= k < 0x10 && k != i.rega ==> t.reg[k] == s.reg[k]
  {
    var linked := SetReg(s, i.rega, ToWord(s.pc + 1));
    linked.(pc := i.RegB())
  }

  /* Load, store, set */

  /** `(regb << 16) | reg[regc]`: the regb field selects one of sixteen 64K-word pages. */
  function Address(s: State, i: Instruction): (a: Addr)
    ensures a == i.RegB() * 0x10000 + s.reg[i.RegC()]
  {
    var page := Bits.Shl(i.RegB(), 16);
    var offset := s.reg[i.RegC()];
    Pow2Values();
    forall k: nat ensures !(Bits.Bit(page, k) && Bits.Bit(offset, k)) {
      Bits.ShlBit(i.RegB(), 16, k);
      if 16 <= k {
        WordBits(offset, k);
      }
    }
    Bits.OrDisjointIsSum(page, offset);
    Bits.Or(page, offset)
  }

  /** STR: `mem[address] = reg[rega]`. */
  function Str(s: State, i: Instruction): (t: State)
    ensures t.pc == s.pc && t.reg == s.reg
    ensures Read(t.mem, Address(s, i)) == s.reg[i.rega]
    ensures forall a: Addr :: a != Address(s, i) ==> Read(t.mem, a) == Read(s.mem, a)
  {
    s.(mem := Write(s.mem, Address(s, i), s.reg[i.rega]))
  }

  /** LOD: `reg[rega] = mem[address]`. */
  function Lod(s: State, i: Instruction): (t: State)
    ensures OnlyRegister(s, t, i.rega)
    ensures t.reg[i.rega] == Read(s.mem, Address(s, i))
  {
    SetReg(s, i.rega, Read(s.mem, Address(s, i)))
  }

  /**
    The value SHB leaves in a register holding `prior`: `prior &= 0xff00` and then
    `prior |= byte << 8`.  The low byte ends up clear and the immediate is or-ed
    into the high byte, which is kept.
   */
  function ShbValue(prior: Word, b: Byte): (r: Word)
    ensures forall k: nat :: Bits.Bit(r, k) <==> 8 <= k < 16 && (Bits.Bit(prior, k) || Bits.Bit(b, k - 8))
  {
    Pow2Values();
    var masked := Words.And(prior, 0xFF00);
    var shifted: Word := Bits.Shl(b, 8);
    var r := Words.Ior(masked, shifted);
    forall k: nat ensures Bits.Bit(r, k) <==> 8 <= k < 16 && (Bits.Bit(prior, k) || Bits.Bit(b, k - 8)) {
      Bits.ShlBit(b, 8, k);
      Bits.ShlBit(0xFF, 8, k);
      if 8 <= k {
        Bits.LowOnes(8, k - 8);
      }
      if 16 <= k {
        WordBits(prior, k);
        ByteBits(b, k - 8);
      }
    }
    r
  }

  /**
    The value SLB leaves in a register holding `prior`: `prior &= 0x00ff` and then
    `prior |= byte`.  The high byte ends up clear and the immediate is or-ed
    into the low byte, which is kept.
   */
  function SlbValue(prior: Word, b: Byte): (r: Word)
    ensures forall k: nat :: Bits.Bit(r, k) <==> k < 8 && (Bits.Bit(prior, k) || Bits.Bit(b, k))
  {
    var r := Words.Ior(LowByte(prior), b);
    forall k: nat ensures Bits.Bit(r, k) <==> k < 8 && (Bits.Bit(prior, k) || Bits.Bit(b, k)) {
      if 8 <= k {
        ByteBits(b, k);
      }
    }
    r
  }

  /** SHB ("set high 8 bits"), as written. */
  function Shb(s: State, i: Instruction): (t: State)
    ensures OnlyRegister(s, t, i.rega)
    ensures t.reg[i.rega] == ShbValue(s.reg[i.rega], i.byte)
  {
    SetReg(s, i.rega, ShbValue(s.reg[i.rega], i.byte))
  }

  /** SLB ("set low 8 bits"), as written. */
  function Slb(s: State, i: Instruction): (t: State)
    ensures OnlyRegister(s, t, i.rega)
    ensures t.reg[i.rega] == SlbValue(s.reg[i.rega], i.byte)
  {
    SetReg(s, i.rega, SlbValue(s.reg[i.rega], i.byte))
  }

  /* Bitwise operators */

  function AndOp(s: State, i: Instruction): (t: State)
    ensures OnlyRegister(s, t, i.rega)
    ensures forall k: nat :: Bits.Bit(t.reg[i.rega], k) <==> Bits.Bit(s.reg[i.RegB()], k) && Bits.Bit(s.reg[i.RegC()], k)
  {
    SetReg(s, i.rega, Words.And(s.reg[i.RegB()], s.reg[i.RegC()]))
  }

  function NndOp(s: State, i: Instruction): (t: State)
    ensures OnlyRegister(s, t, i.rega)
    ensures forall k: nat :: Bits.Bit(t.reg[i.rega], k) <==> k < 16 && !(Bits.Bit(s.reg[i.RegB()], k) && Bits.Bit(s.reg[i.RegC()], k))
  {
    SetReg(s, i.rega, Words.Nnd(s.reg[i.RegB()], s.reg[i.RegC()]))
  }

  function IorOp(s: State, i: Instruction): (t: State)
    ensures OnlyRegister(s, t, i.rega)
    ensures forall k: nat :: Bits.Bit(t.reg[i.rega], k) <==> Bits.Bit(s.reg[i.RegB()], k) || Bits.Bit(s.reg[i.RegC()], k)
  {
    SetReg(s, i.rega, Words.Ior(s.reg[i.RegB()], s.reg[i.RegC()]))
  }

  function XorOp(s: State, i: Instruction): (t: State)
    ensures OnlyRegister(s, t, i.rega)
    ensures forall k: nat :: Bits.Bit(t.reg[i.rega], k) <==> Bits.Bit(s.reg[i.RegB()], k) != Bits.Bit(s.reg[i.RegC()], k)
  {
    SetReg(s, i.rega, Words.Xor(s.reg[i.RegB()], s.reg[i.RegC()]))
  }

  /* Mathematical operators */

  /** The ADD member function; `runInstruction` never calls it. */
  function AddOp(s: State, i: Instruction): (t: State)
    ensures OnlyRegister(s, t, i.rega)
    ensures var b, c := s.reg[i.RegB()] as int, s.reg[i.RegC()] as int;
      t.reg[i.rega] + (if b + c < WordLimit then 0 else WordLimit) == b + c
  {
    SetReg(s, i.rega, Words.Add(s.reg[i.RegB()], s.reg[i.RegC()]))
  }

  /** The SUB member function; `runInstruction` never calls it. */
  function SubOp(s: State, i: Instruction): (t: State)
    ensures OnlyRegister(s, t, i.rega)
    ensures var b, c := s.reg[i.RegB()] as int, s.reg[i.RegC()] as int;
      t.reg[i.rega] - (if c <= b then 0 else WordLimit) == b - c
  {
    SetReg(s, i.rega, Words.Sub(s.reg[i.RegB()], s.reg[i.RegC()]))
  }

  function MulOp(s: State, i: Instruction): (t: State)
    ensures OnlyRegister(s, t, i.rega)
    ensures var b, c := s.reg[i.RegB()] as int, s.reg[i.RegC()] as int;
      (b * c - t.reg[i.rega]) % WordLimit == 0
  {
    SetReg(s, i.rega, Words.Mul(s.reg[i.RegB()], s.reg[i.RegC()]))
  }

  /** DIV: dividing by a zero register is undefined behaviour in the source, so it is excluded. */
  function DivOp(s: State, i: Instruction): (t: State)
    requires s.reg[i.RegC()] != 0
    ensures OnlyRegister(s, t, i.rega)
    ensures var q, b, c := t.reg[i.rega] as int, s.reg[i.RegB()] as int, s.reg[i.RegC()] as int;
      q * c <= b < (q + 1) * c
  {
    SetReg(s, i.rega, Words.Div(s.reg[i.RegB()], s.reg[i.RegC()]))
  }

  /** NO_OPCODE: does nothing. */
  function NoOpcode(s: State, i: Instruction): (t: State)
    ensures t.pc == s.pc && t.reg == s.reg && t.mem == s.mem
  {
    s
  }

  /** The one case where `runInstruction` has defined behaviour only conditionally. */
  predicate Defined(s: State, i: Instruction)
  {
    i.opcode == Code(DIV) ==> s.reg[i.RegC()] != 0
  }

  /**
    `runInstruction`: the opcode is compared with each enumerator in turn and
    the matching handler runs; a code no enumerator has reaches NO_OPCODE.
    Every 4-bit opcode has an effect.  Across all of them only STR writes
    memory, only the two jumps move the PC (and then only to 0..15), and no
    instruction writes a register other than `rega`.
   */
  function Run(s: State, i: Instruction): (t: State)
    requires Defined(s, i)
    ensures t.mem != s.mem ==> Lookup(i.opcode) == Some(STR)
    ensures t.pc != s.pc ==> Lookup(i.opcode) in {Some(JIE), Some(JAL)} && t.pc < 0x10
    ensures forall k :: 0 <= k < 0x10 && k != i.rega ==> t.reg[k] == s.reg[k]
    ensures Lookup(i.opcode) in {Some(JIE), Some(STR), None} ==> t.reg == s.reg
  {
    match Lookup(i.opcode)
    case Some(JIE) => Jie(s, i)
    case Some(JAL) => Jal(s, i)
    case Some(STR) => Str(s, i)
    case Some(LOD) => Lod(s, i)
    case Some(SHB) => Shb(s, i)
    case Some(SLB) => Slb(s, i)
    case Some(AND) => AndOp(s, i)
    case Some(NND) => NndOp(s, i)
    case Some(IOR) => IorOp(s, i)
    case Some(XOR) => XorOp(s, i)
    case Some(ADD) => Lod(s, i)
    case Some(SUB) => Lod(s, i)
    case Some(MUL) => MulOp(s, i)
    case Some(DIV) => DivOp(s, i)
    case None => NoOpcode(s, i)
  }
}

=== FILE: instruction.dfy ===
/**
  `lisc::Instruction`: a 16-bit instruction word.

  The struct holds a 4-bit `opcode`, a 4-bit `rega`, and a union whose two
  views share eight bits of storage: two 4-bit fields `regb`/`regc`, or one
  8-bit immediate `byte`.  The placement of bit-fields is left to the
  compiler, so the model fixes one explicit layout and uses it throughout:

      bits 15-12  opcode
      bits 11-8   rega
      bits 7-4    regb  \
      bits 3-0    regc  /  together: byte, bits 7-0

  The datatype stores the shared eight bits once (`byte`); `RegB` and `RegC`
  read the two nibbles of that storage with a shift and a mask.
 */
module Instructions {
  import Bits
  import opened Words
  import opened Opcodes

  lemma NibbleBits(x: Nibble, k: nat)
    requires 4 <= k
    ensures !Bits.Bit(x, k)
  {
    Pow2Values();
    Bits.BitBeyondWidth(x, 4, k);
  }

  lemma ByteBits(x: Byte, k: nat)
    requires 8 <= k
    ensures !Bits.Bit(x, k)
  {
    Pow2Values();
    Bits.BitBeyondWidth(x, 8, k);
  }

  /** `x & 0xf`: the low nibble of `x`. */
  function LowNibble(x: nat): (r: Nibble)
    ensures forall k: nat :: Bits.Bit(r, k) <==> k < 4 && Bits.Bit(x, k)
  {
    Bits.AndBelowMask(x, 0xF);
    var r := Bits.And(x, 0xF);
    forall k: nat ensures Bits.Bit(r, k) <==> k < 4 && Bits.Bit(x, k) {
      Pow2Values();
      Bits.LowOnes(4, k);
    }
    r
  }

  /** `x & 0xff`: the low byte of `x`. */
  function LowByte(x: nat): (r: Byte)
    ensures forall k: nat :: Bits.Bit(r, k) <==> k < 8 && Bits.Bit(x, k)
  {
    Bits.AndBelowMask(x, 0xFF);
    var r := Bits.And(x, 0xFF);
    forall k: nat ensures Bits.Bit(r, k) <==> k < 8 && Bits.Bit(x, k) {
      Pow2Values();
      Bits.LowOnes(8, k);
    }
    r
  }

  /** `x >> 8 == x / 256`. */
  lemma ShrIsDiv8(x: nat)
    ensures Bits.Shr(x, 8) == x / 0x100
  {
    Bits.ShrIsDiv(x, 8);
    Pow2Values();
  }

  /** `x & 0xff == x % 256`. */
  lemma LowByteIsMod(x: nat)
    ensures LowByte(x) == x % 0x100
  {
    ModByteBits(x);
    forall k: nat ensures Bits.Bit(LowByte(x), k) == Bits.Bit(x % 0x100, k) {
    }
    Bits.Extensionality(LowByte(x), x % 0x100);
  }

  /** `x % 256` keeps exactly bits 0-7 of `x`. */
  lemma ModByteBits(x: nat)
    ensures forall k: nat :: Bits.Bit(x % 0x100, k) <==> k < 8 && Bits.Bit(x, k)
  {
    var lo := x % 0x100;
    var q := Bits.Shr(x, 8);
    ShrIsDiv8(x);
    Pow2Values();
    assert x == Bits.Shl(q, 8) + lo;
    forall k: nat ensures !(Bits.Bit(Bits.Shl(q, 8), k) && Bits.Bit(lo, k)) {
      Bits.ShlBit(q, 8, k);
      if 8 <= k {
        ByteBits(lo, k);
      }
    }
    Bits.OrDisjointIsSum(Bits.Shl(q, 8), lo);
    forall k: nat ensures Bits.Bit(lo, k) <==> k < 8 && Bits.Bit(x, k) {
      Bits.ShlBit(q, 8, k);
      if 8 <= k {
        ByteBits(lo, k);
      }
    }
  }

  datatype Instruction = Instruction(opcode: Nibble, rega: Nibble, byte: Byte)
  {
    /** The `regb` view of the union: bits 7-4 of `byte`. */
    function RegB(): (b: Nibble)
      ensures forall k: nat :: Bits.Bit(b, k) <==> k < 4 && Bits.Bit(byte, k + 4)
    {
      var b := LowNibble(Bits.Shr(byte, 4));
      forall k: nat ensures Bits.Bit(b, k) <==> k < 4 && Bits.Bit(byte, k + 4) {
        Bits.ShrBit(byte, 4, k);
      }
      b
    }

    /** The `regc` view of the union: bits 3-0 of `byte`. */
    function RegC(): (c: Nibble)
      ensures forall k: nat :: Bits.Bit(c, k) <==> k < 4 && Bits.Bit(byte, k)
    {
      LowNibble(byte)
    }
  }

  /** Both views of the union describe the same eight bits: `byte == regb * 16 + regc`. */
  lemma ByteIsRegs(i: Instruction)
    ensures i.byte == i.RegB() * 16 + i.RegC()
  {
    var hi := Bits.Shl(i.RegB(), 4);
    forall k: nat ensures Bits.Bit(hi, k) <==> 4 <= k < 8 && Bits.Bit(i.byte, k) {
      Bits.ShlBit(i.RegB(), 4, k);
    }
    forall k: nat ensures !(Bits.Bit(hi, k) && Bits.Bit(i.RegC(), k)) {
    }
    Bits.OrDisjointIsSum(hi, i.RegC());
    forall k: nat ensures Bits.Bit(Bits.Or(hi, i.RegC()), k) == Bits.Bit(i.byte, k) {
      if 8 <= k {
        ByteBits(i.byte, k);
      }
    }
    Bits.Extensionality(Bits.Or(hi, i.RegC()), i.byte);
    Pow2Values();
  }

  /** Base-16 digits are unique. */
  lemma NibblePairUnique(b: Nibble, c: Nibble, b': Nibble, c': Nibble)
    requires b * 16 + c == b' * 16 + c'
    ensures b == b' && c == c'
  {
  }

  /** `Instruction()`: every field zero, so opcode `JIE` with registers 0, 0, 0. */
  function Default(): (i: Instruction)
    ensures i.opcode == Code(JIE) && i.rega == 0 && i.byte == 0
    ensures i.RegB() == 0 && i.RegC() == 0
  {
    var i := Instruction(0, 0, 0);
    ByteIsRegs(i);
    i
  }

  /**
    `Instruction(op, ra, rb, rc)`: each `uint8_t` argument is stored into a
    4-bit field, which keeps it modulo 16.
   */
  function MakeRegs(op: Opcode, ra: Byte, rb: Byte, rc: Byte): (i: Instruction)
    ensures i.opcode == Code(op)
    ensures i.rega == ra % 16
    ensures i.RegB() == rb % 16
    ensures i.RegC() == rc % 16
  {
    var hi := Bits.Shl(rb % 16, 4);
    var lo: Nibble := rc % 16;
    forall k: nat ensures !(Bits.Bit(hi, k) && Bits.Bit(lo, k)) {
      Bits.ShlBit(rb % 16, 4, k);
      if 4 <= k {
        NibbleBits(lo, k);
      }
    }
    Pow2Values();
    assert hi == (rb % 16) * 16;
    Bits.OrDisjointIsSum(hi, lo);
    var i := Instruction(Code(op), ra % 16, Bits.Or(hi, lo));
    ByteIsRegs(i);
    NibblePairUnique(i.RegB(), i.RegC(), rb % 16, lo);
    i
  }

  /** `Instruction(op, ra, b)`: the immediate fills the whole shared byte. */
  function MakeImm(op: Opcode, ra: Byte, b: Byte): (i: Instruction)
    ensures i.opcode == Code(op)
    ensures i.rega == ra % 16
    ensures i.byte == b
    ensures i.RegB() == b / 16 && i.RegC() == b % 16
  {
    var i := Instruction(Code(op), ra % 16, b);
    ByteIsRegs(i);
    i
  }

  /** The word `opcode << 12 | rega << 8 | byte`. */
  function Encode(i: Instruction): (w: Word)
    ensures w == i.opcode * 0x1000 + i.rega * 0x100 + i.byte
  {
    var op := Bits.Shl(i.opcode, 12);
    var ra := Bits.Shl(i.rega, 8);
    Pow2Values();
    forall k: nat ensures !(Bits.Bit(op, k) && Bits.Bit(ra, k)) {
      Bits.ShlBit(i.opcode, 12, k);
      Bits.ShlBit(i.rega, 8, k);
      if 12 <= k {
        NibbleBits(i.rega, k - 8);
      }
    }
    Bits.OrDisjointIsSum(op, ra);
    forall k: nat ensures !(Bits.Bit(Bits.Or(op, ra), k) && Bits.Bit(i.byte, k)) {
      Bits.ShlBit(i.opcode, 12, k);
      Bits.ShlBit(i.rega, 8, k);
      if 8 <= k {
        ByteBits(i.byte, k);
      }
    }
    Bits.OrDisjointIsSum(Bits.Or(op, ra), i.byte);
    Bits.Or(Bits.Or(op, ra), i.byte)
  }

  /** Which field of an encoded instruction each bit of the word comes from. */
  lemma EncodeBit(i: Instruction, k: nat)
    ensures Bits.Bit(Encode(i), k) <==>
      || (12 <= k && Bits.Bit(i.opcode, k - 12))
      || (8 <= k && Bits.Bit(i.rega, k - 8))
      || Bits.Bit(i.byte, k)
  {
    Pow2Values();
    Bits.ShlBit(i.opcode, 12, k);
    Bits.ShlBit(i.rega, 8, k);
  }

  /** Splits a word into the fields `w >> 12 & 0xf`, `w >> 8 & 0xf` and `w & 0xff`; re-encoding them gives `w` back. */
  function Decode(w: Word): (i: Instruction)
    ensures Encode(i) == w
  {
    var i := Instruction(LowNibble(Bits.Shr(w, 12)), LowNibble(Bits.Shr(w, 8)), LowByte(w));
    forall k: nat ensures Bits.Bit(Encode(i), k) == Bits.Bit(w, k) {
      EncodeBit(i, k);
      if 12 <= k {
        Bits.ShrBit(w, 12, k - 12);
      }
      if 8 <= k {
        Bits.ShrBit(w, 8, k - 8);
      }
      if 16 <= k {
        WordBits(w, k);
      }
    }
    Bits.Extensionality(Encode(i), w);
    i
  }

  /** Distinct instructions have distinct encodings. */
  lemma EncodeInjective(i: Instruction, j: Instruction)
    requires Encode(i) == Encode(j)
    ensures i == j
  {
    assert i.opcode == j.opcode;
    assert i.rega == j.rega;
  }

  /** Decoding an encoded instruction gives back every field. */
  lemma DecodeEncode(i: Instruction)
    ensures Decode(Encode(i)) == i
  {
    EncodeInjective(Decode(Encode(i)), i);
  }

  /** The fields of a decoded word, read arithmetically. */
  lemma DecodeFields(w: Word)
    ensures Decode(w).opcode == w / 0x1000
    ensures Decode(w).rega == (w / 0x100) % 0x10
    ensures Decode(w).RegB() == (w / 0x10) % 0x10
    ensures Decode(w).RegC() == w % 0x10
    ensures Decode(w).byte == w % 0x100
  {
    var i := Decode(w);
    ByteIsRegs(i);
    Bits.DivModUnique(w, 0x1000, i.opcode, i.rega * 0x100 + i.byte);
    Bits.DivModUnique(w, 0x100, i.opcode * 0x10 + i.rega, i.byte);
    Bits.DivModUnique(i.opcode * 0x10 + i.rega, 0x10, i.opcode, i.rega);
    Bits.DivModUnique(w, 0x10, i.opcode * 0x100 + i.rega * 0x10 + i.RegB(), i.RegC());
    Bits.DivModUnique(i.opcode * 0x100 + i.rega * 0x10 + i.RegB(), 0x10, i.opcode * 0x10 + i.rega, i.RegB());
  }
}

=== FILE: opcodes.dfy ===
/**
  The `lisc::opcodes` enumeration: fourteen named instructions on a 4-bit
  opcode space.  The codes 0x2 and 0x3 have no name.
 */
module Opcodes {
  import opened Words

  datatype Option<T> = None | Some(value: T)

  datatype Opcode =
    | JIE  // jump if equal
    | JAL  // jump and link PC+1
    | STR  // store in memory
    | LOD  // load from memory
    | SHB  // "set high 8 bits"
    | SLB  // "set low 8 bits"
    | AND
    | NND  // not and
    | IOR  // inclusive or
    | XOR  // exclusive or
    | ADD
    | SUB
    | MUL
    | DIV

  predicate IsJump(op: Opcode) { op == JIE || op == JAL }
  predicate IsLoadStoreSet(op: Opcode) { op == STR || op == LOD || op == SHB || op == SLB }
  predicate IsBitwise(op: Opcode) { op == AND || op == NND || op == IOR || op == XOR }

  /**
    The enumerator's value.  The values fall into the enumeration's four
    groups: jumps below 0x2, load/store/set in 0x4-0x7, bitwise operators in
    0x8-0xB and arithmetic in 0xC-0xF; 0x2 and 0x3 are left unused.
   */
  function Code(op: Opcode): (c: Nibble)
    ensures c != 0x2 && c != 0x3
    ensures IsJump(op) <==> c < 0x2
    ensures IsLoadStoreSet(op) <==> 0x4 <= c < 0x8
    ensures IsBitwise(op) <==> 0x8 <= c < 0xC
    ensures !IsJump(op) && !IsLoadStoreSet(op) && !IsBitwise(op) <==> 0xC <= c
  {
    match op
    case JIE => 0x0
    case JAL => 0x1
    case STR => 0x4
    case LOD => 0x5
    case SHB => 0x6
    case SLB => 0x7
    case AND => 0x8
    case NND => 0x9
    case IOR => 0xA
    case XOR => 0xB
    case ADD => 0xC
    case SUB => 0xD
    case MUL => 0xE
    case DIV => 0xF
  }

  /** The enumerator, if any, whose value is `code`. */
  function Lookup(code: Nibble): (r: Option<Opcode>)
    ensures r.None? <==> code == 0x2 || code == 0x3
    ensures r.Some? ==> Code(r.value) == code
  {
    match code
    case 0x0 => Some(JIE)
    case 0x1 => Some(JAL)
    case 0x4 => Some(STR)
    case 0x5 => Some(LOD)
    case 0x6 => Some(SHB)
    case 0x7 => Some(SLB)
    case 0x8 => Some(AND)
    case 0x9 => Some(NND)
    case 0xA => Some(IOR)
    case 0xB => Some(XOR)
    case 0xC => Some(ADD)
    case 0xD => Some(SUB)
    case 0xE => Some(MUL)
    case 0xF => Some(DIV)
    case _ => None
  }

  /** Every enumerator is found again from its value, so distinct enumerators have distinct values. */
  lemma LookupCode(op: Opcode)
    ensures Lookup(Code(op)) == Some(op)
  {
  }
}

=== FILE: properties.dfy ===
/**
  Properties of `runInstruction` and of the handlers, as the source is written.
 */
module CpuProperties {
  import Bits
  import opened Words
  import opened Opcodes
  import opened Instructions
  import opened Cpu

  /* Dispatch */

  /** The handler each enumerator names, the ADD and SUB member functions included. */
  function Named(op: Opcode, s: State, i: Instruction): State
    requires op == DIV ==> s.reg[i.RegC()] != 0
  {
    match op
    case JIE => Jie(s, i)
    case JAL => Jal(s, i)
    case STR => Str(s, i)
    case LOD => Lod(s, i)
    case SHB => Shb(s, i)
    case SLB => Slb(s, i)
    case AND => AndOp(s, i)
    case NND => NndOp(s, i)
    case IOR => IorOp(s, i)
    case XOR => XorOp(s, i)
    case ADD => AddOp(s, i)
    case SUB => SubOp(s, i)
    case MUL => MulOp(s, i)
    case DIV => DivOp(s, i)
  }

  /**
    `runInstruction` calls the handler an opcode is named after, except that
    ADD and SUB are both sent to LOD; the two unnamed codes do nothing.
   */
  lemma RunDispatch(s: State, i: Instruction)
    requires Defined(s, i)
    ensures Lookup(i.opcode).None? ==> Run(s, i) == s
    ensures Lookup(i.opcode) == Some(ADD) ==> Run(s, i) == Lod(s, i)
    ensures Lookup(i.opcode) == Some(SUB) ==> Run(s, i) == Lod(s, i)
    ensures Lookup(i.opcode).Some? && Lookup(i.opcode).value !in {ADD, SUB} ==>
      Run(s, i) == Named(Lookup(i.opcode).value, s, i)
  {
  }

  /**
    Whatever the registers and memory hold, opcodes 0xC and 0xD make exactly
    LOD's state change: they never add or subtract.
   */
  lemma AddSubLoad(s: State, i: Instruction)
    requires i.opcode == Code(ADD) || i.opcode == Code(SUB)
    ensures Run(s, i) == Lod(s, i)
  {
    AddSubCodes(i);
    RunDispatch(s, i);
  }

  lemma AddSubCodes(i: Instruction)
    requires i.opcode == Code(ADD) || i.opcode == Code(SUB)
    ensures Lookup(i.opcode) in {Some(ADD), Some(SUB)}
  {
    LookupCode(ADD);
    LookupCode(SUB);
  }

  /* Jumps */

  /** Both jumps land on a 4-bit field of the instruction word itself, never on a register's contents. */
  lemma JumpTargetsAreFields(s: State, i: Instruction)
    ensures i.opcode == Code(JIE) && s.reg[i.rega] == s.reg[i.RegB()] ==> Run(s, i).pc == Encode(i) % 0x10
    ensures i.opcode == Code(JAL) ==> Run(s, i).pc == (Encode(i) / 0x10) % 0x10
  {
    DecodeEncode(i);
    DecodeFields(Encode(i));
  }

  /** The all-zero instruction is `JIE r0, r0, 0`: it always jumps to address 0 and changes nothing else. */
  lemma DefaultJumpsToZero(s: State)
    ensures Run(s, Default()) == s.(pc := 0)
  {
  }

  /** JAL at PC 10 with rega 1 and regb 2 links 11 and continues at address 2, whatever register 2 holds. */
  lemma JalExample(s: State)
    requires s.pc == 10
    ensures var t := Run(s, MakeRegs(JAL, 1, 2, 0)); t.reg[1] == 11 && t.pc == 2
  {
    var i := MakeRegs(JAL, 1, 2, 0);
    assert i.opcode == Code(JAL) && i.rega == 1 && i.RegB() == 2;
    assert Run(s, i) == Jal(s, i);
  }

  /** The link wraps: JAL at PC 0xFFFF stores 0. */
  lemma JalLinkWraps(s: State, i: Instruction)
    requires s.pc == 0xFFFF && i.opcode == Code(JAL)
    ensures Run(s, i).reg[i.rega] == 0
  {
  }

  /* Memory */

  /** A load through the same regb field and regc register returns what a store just wrote. */
  lemma StoreThenLoad(s: State, i: Instruction, j: Instruction)
    requires j.RegB() == i.RegB() && j.RegC() == i.RegC()
    ensures Lod(Str(s, i), j).reg[j.rega] == s.reg[i.rega]
  {
  }

  /**
    Storing back what was just loaded leaves memory as it was, unless the
    load overwrote the register that forms the address.
   */
  lemma LoadThenStore(s: State, i: Instruction)
    requires i.rega != i.RegC()
    ensures Str(Lod(s, i), i) == Lod(s, i)
  {
    StoreSameValue(Lod(s, i), i);
  }

  /** Storing the value a word already holds changes nothing at all. */
  lemma StoreSameValue(s: State, i: Instruction)
    requires Read(s.mem, Address(s, i)) == s.reg[i.rega]
    ensures Str(s, i) == s
  {
    MemoryExtensionality(Str(s, i).mem, s.mem);
  }

  /** A second store of the same instruction changes nothing more. */
  lemma StoreIdempotent(s: State, i: Instruction)
    ensures Str(Str(s, i), i) == Str(s, i)
  {
    StoreSameValue(Str(s, i), i);
  }

  /** When the load overwrites its own address register, the store goes elsewhere. */
  lemma LoadThenStoreAliased(s: State, i: Instruction)
    requires i.rega == i.RegC()
    ensures Address(Lod(s, i), i) == i.RegB() * 0x10000 + Read(s.mem, Address(s, i))
  {
  }

  /** Every address STR and LOD can form lies in the 0x100000-word memory, on the page the regb field selects. */
  lemma AddressInRange(s: State, i: Instruction)
    ensures Address(s, i) < MemorySize
    ensures Address(s, i) / 0x10000 == i.RegB()
    ensures Address(s, i) % 0x10000 == s.reg[i.RegC()]
  {
  }

  /* Set high / set low byte */

  /** After SHB the low byte of the register is zero. */
  lemma ShbClearsLowByte(prior: Word, b: Byte)
    ensures ShbValue(prior, b) % 0x100 == 0
  {
    var r := ShbValue(prior, b);
    var q := Bits.Shr(r, 8);
    forall k: nat ensures Bits.Bit(Bits.Shl(q, 8), k) == Bits.Bit(r, k) {
      Bits.ShlBit(q, 8, k);
      if 8 <= k {
        Bits.ShrBit(r, 8, k - 8);
      }
    }
    Bits.Extensionality(Bits.Shl(q, 8), r);
    Pow2Values();
    assert r == q * 0x100;
  }

  /** After SLB the high byte of the register is zero. */
  lemma SlbClearsHighByte(prior: Word, b: Byte)
    ensures SlbValue(prior, b) < 0x100
  {
    Bits.HighBitsClear(SlbValue(prior, b), 8);
    Pow2Values();
  }

  /** SHB ors the immediate into the high byte it keeps. */
  lemma ShbHighByte(prior: Word, b: Byte)
    ensures ShbValue(prior, b) == Bits.Or(prior / 0x100, b) * 0x100
  {
    ShbClearsLowByte(prior, b);
    var r := ShbValue(prior, b);
    var hi := Bits.Or(prior / 0x100, b);
    Pow2Values();
    ShrIsDiv8(prior);
    forall k: nat ensures Bits.Bit(Bits.Shl(hi, 8), k) == Bits.Bit(r, k) {
      Bits.ShlBit(hi, 8, k);
      if 8 <= k {
        Bits.ShrBit(prior, 8, k - 8);
        if 16 <= k {
          WordBits(prior, k);
          ByteBits(b, k - 8);
        }
      }
    }
    Bits.Extensionality(Bits.Shl(hi, 8), r);
  }

  /** SLB ors the immediate into the low byte it keeps. */
  lemma SlbLowByte(prior: Word, b: Byte)
    ensures SlbValue(prior, b) == Bits.Or(prior % 0x100, b)
  {
    LowByteIsMod(prior);
  }

  /**
    SHB on a register whose high byte is zero gives `b << 8`: whatever the
    low byte held is discarded, so SHB does not keep the other half.
   */
  lemma ShbDiscardsLowByte(prior: Word, b: Byte)
    requires prior < 0x100
    ensures ShbValue(prior, b) == b * 0x100
  {
    ShbHighByte(prior, b);
    assert prior / 0x100 == 0;
    Bits.OrZero(b);
  }

  /**
    SLB on a register whose low byte is zero gives `b`: whatever the high
    byte held is discarded, so SLB does not keep the other half.
   */
  lemma SlbDiscardsHighByte(prior: Word, b: Byte)
    requires prior % 0x100 == 0
    ensures SlbValue(prior, b) == b
  {
    SlbLowByte(prior, b);
    Bits.OrZero(b);
  }

  /** Repeating an SHB changes nothing more. */
  lemma ShbIdempotent(s: State, i: Instruction)
    ensures Shb(Shb(s, i), i) == Shb(s, i)
  {
    var v := Shb(s, i).reg[i.rega];
    SameWordBits(ShbValue(v, i.byte), v);
  }

  /** Repeating an SLB changes nothing more. */
  lemma SlbIdempotent(s: State, i: Instruction)
    ensures Slb(Slb(s, i), i) == Slb(s, i)
  {
    var v := Slb(s, i).reg[i.rega];
    SameWordBits(SlbValue(v, i.byte), v);
  }

  /* Arithmetic handlers */

  /** The ADD and SUB member functions undo each other on the same operand register. */
  lemma AddThenSub(s: State, i: Instruction, j: Instruction)
    requires i.RegC() != i.rega && j.RegB() == i.rega && j.RegC() == i.RegC() && j.rega == i.rega
    ensures SubOp(AddOp(s, i), j).reg[i.rega] == s.reg[i.RegB()]
  {
    AddSubInverse(s.reg[i.RegB()], s.reg[i.RegC()]);
  }
}

=== FILE: words.dfy ===
/**
  Unsigned 16-bit words and the arithmetic the CPU handlers perform on them.

  In the source every register and memory cell is a `uint16_t`.  An
  expression such as `reg[b] + reg[c]` is evaluated after promotion to `int`
  and the result is converted back to `uint16_t` when it is assigned, which
  reduces it modulo 2^16.  Each function here is that promote-compute-convert
  sequence, and its contract states the result in terms of the operands.
 */
module Words {
  import Bits

  const WordLimit: nat := 0x10000

  type Word = x: int | 0 <= x < WordLimit
  type Byte = x: int | 0 <= x < 0x100
  type Nibble = x: int | 0 <= x < 0x10

  lemma Pow2Values()
    ensures Bits.Pow2(4) == 0x10
    ensures Bits.Pow2(8) == 0x100
    ensures Bits.Pow2(12) == 0x1000
    ensures Bits.Pow2(16) == 0x10000
    ensures Bits.Pow2(20) == 0x10_0000
  {
    assert Bits.Pow2(4) == 0x10;
    assert Bits.Pow2(8) == 0x100;
    assert Bits.Pow2(12) == 0x1000;
    assert Bits.Pow2(16) == 0x10000;
  }

  /** A 16-bit word has no bit at position 16 or above. */
  lemma WordBits(w: Word, k: nat)
    requires 16 <= k
    ensures !Bits.Bit(w, k)
  {
    Pow2Values();
    Bits.BitBeyondWidth(w, 16, k);
  }

  /** Conversion of a C `int` to `uint16_t`: the unique word congruent to `x` modulo 2^16. */
  function ToWord(x: int): (r: Word)
    ensures (x - r) % WordLimit == 0
    ensures 0 <= x < WordLimit ==> r == x
  {
    x % WordLimit
  }

  /** `reg[b] + reg[c]` stored into a `uint16_t`: the carry out of bit 15 is dropped. */
  function Add(b: Word, c: Word): (r: Word)
    ensures r == if b + c < WordLimit then b + c else b + c - WordLimit
  {
    ToWord(b + c)
  }

  /** `reg[b] - reg[c]` stored into a `uint16_t`: a borrow wraps around. */
  function Sub(b: Word, c: Word): (r: Word)
    ensures r == if c <= b then b - c else b - c + WordLimit
  {
    ToWord(b - c)
  }

  /** `reg[b] * reg[c]` stored into a `uint16_t`: the low 16 bits of the product. */
  function Mul(b: Word, c: Word): (r: Word)
    ensures (b * c - r) % WordLimit == 0
    ensures b * c < WordLimit ==> r == b * c
  {
    ToWord(b * c)
  }

  /** `reg[b] / reg[c]` on unsigned operands: the quotient truncated toward zero. */
  function Div(b: Word, c: Word): (r: Word)
    requires c != 0
    ensures r * c <= b < r * c + c
  {
    assert b == (b / c) * c + b % c;
    b / c
  }

  /** `reg[b] & reg[c]`. */
  function And(b: Word, c: Word): (r: Word)
    ensures forall k: nat :: Bits.Bit(r, k) <==> Bits.Bit(b, k) && Bits.Bit(c, k)
  {
    Bits.AndBelowMask(b, c);
    Bits.And(b, c)
  }

  /** `reg[b] | reg[c]`. */
  function Ior(b: Word, c: Word): (r: Word)
    ensures forall k: nat :: Bits.Bit(r, k) <==> Bits.Bit(b, k) || Bits.Bit(c, k)
  {
    Pow2Values();
    Bits.BitwiseBound(Bits.Disj, b, c, 16);
    Bits.Or(b, c)
  }

  /** `reg[b] ^ reg[c]`. */
  function Xor(b: Word, c: Word): (r: Word)
    ensures forall k: nat :: Bits.Bit(r, k) <==> Bits.Bit(b, k) != Bits.Bit(c, k)
  {
    Pow2Values();
    Bits.BitwiseBound(Bits.Differ, b, c, 16);
    Bits.Xor(b, c)
  }

  /**
    `0xffff ^ (reg[b] & reg[c])`: the complement of the conjunction, on the
    sixteen bits of a word and on nothing above them.
   */
  function Nnd(b: Word, c: Word): (r: Word)
    ensures forall k: nat :: Bits.Bit(r, k) <==> k < 16 && !(Bits.Bit(b, k) && Bits.Bit(c, k))
  {
    var r := Xor(0xFFFF, And(b, c));
    forall k: nat ensures Bits.Bit(r, k) <==> k < 16 && !(Bits.Bit(b, k) && Bits.Bit(c, k)) {
      Pow2Values();
      Bits.LowOnes(16, k);
      assert Bits.Bit(0xFFFF, k) <==> k < 16;
      assert Bits.Bit(r, k) <==> Bits.Bit(0xFFFF, k) != Bits.Bit(And(b, c), k);
      if 16 <= k {
        WordBits(b, k);
      }
    }
    r
  }

  /** Subtraction undoes addition and addition undoes subtraction, across the wrap-around. */
  lemma AddSubInverse(b: Word, c: Word)
    ensures Sub(Add(b, c), c) == b
    ensures Add(Sub(b, c), c) == b
  {
  }

  /** Wrapped multiplication is wrapped repeated addition. */
  lemma {:induction false} MulStep(b: Word, c: Word)
    requires c + 1 < WordLimit
    ensures Mul(b, c + 1) == Add(Mul(b, c), b)
  {
    var m := Mul(b, c);
    var q := (b * c) / WordLimit;
    assert b * c == q * WordLimit + m;
    assert b * (c + 1) == b * c + b;
    if m + b < WordLimit {
      Bits.DivModUnique(b * (c + 1), WordLimit, q, m + b);
    } else {
      Bits.DivModUnique(b * (c + 1), WordLimit, q + 1, m + b - WordLimit);
    }
  }

  /** Two words with the same sixteen low bits are equal. */
  lemma SameWordBits(x: Word, y: Word)
    requires forall k: nat :: k < 16 ==> (Bits.Bit(x, k) <==> Bits.Bit(y, k))
    ensures x == y
  {
    forall k: nat ensures Bits.Bit(x, k) == Bits.Bit(y, k) {
      if 16 <= k {
        WordBits(x, k);
        WordBits(y, k);
      }
    }
    Bits.Extensionality(x, y);
  }

  /** NND of two all-ones words is zero. */
  lemma NndOfOnes()
    ensures Nnd(0xFFFF, 0xFFFF) == 0
  {
    forall k: nat | k < 16 ensures Bits.Bit(Nnd(0xFFFF, 0xFFFF), k) == Bits.Bit(0, k) {
      Pow2Values();
      Bits.LowOnes(16, k);
      Bits.ZeroHasNoBits(k);
    }
    SameWordBits(Nnd(0xFFFF, 0xFFFF), 0);
  }

  /** NND is universal: NND of a NND with itself is AND. */
  lemma NndNndIsAnd(b: Word, c: Word)
    ensures Nnd(Nnd(b, c), Nnd(b, c)) == And(b, c)
  {
    SameWordBits(Nnd(Nnd(b, c), Nnd(b, c)), And(b, c));
  }

  /** Wrap-around at both ends of a 16-bit word, and a truncating division. */
  lemma WrapExamples()
    ensures Add(0xFFFF, 0x0001) == 0x0000
    ensures Sub(0x0000, 0x0001) == 0xFFFF
    ensures Mul(0x8000, 0x0002) == 0x0000
    ensures Div(7, 2) == 3
  {
  }
}
